=== FILE: README.md ===
# Divvy trip loader: a Dafny model of the record transform

This project models the decision logic of the Divvy bike-share loader (`main.go`), which
reads historical station and trip CSV files and indexes enriched trip documents into
Elasticsearch. The model covers three parts:

- **Station registry.** Each station row is parsed under the column layout its file
  name selects. The two 2017 files have a trimmed city column; every older file gets the
  city "Chicago". The rows of all station files, in declared order, are folded into a map
  from station ID to station, and a later row with the same ID replaces an earlier one.
  A non-numeric ID or dock count ends the run.
- **Timestamp cascade.** Each trip timestamp gets the current America/Chicago offset
  and abbreviation appended. It is then tried against five Go layouts in a fixed order. The
  first layout that parses wins. If none parses, the run ends.
- **Trip enrichment.** Each trip row gets one of three outcomes against the finished
  registry:
  - emitted as an enriched trip, joined with its origin and destination stations;
  - skipped, for the header row or a station ID the registry lacks;
  - ended the run, for a malformed required field, reported in the order the loader
    checks the fields, or for a trip whose floating-point fields `json.Marshal` refuses.

  Each emitted trip becomes one create-only bulk request keyed by `fmt.Sprintf("%d", id)`.

Modules:

- `Wrappers`: Option and Result.
- `Text`: `strings.TrimSpace`, comma stripping and `%d` rendering.
- `Externals`: the library routines the loader calls, as fields of `Env`:
  - `strconv.Atoi`, with the value it returns alongside an error;
  - whether `strconv.ParseFloat` succeeds;
  - `time.Parse`, RFC 3339 formatting and the weekday name;
  - the clock-derived zone suffix.
- `Rows`: the three-way row outcome and the sequence of outcomes a run produces.
- `Stations`, `Timestamps`, `Trips`: the three parts listed above.
- `Loader`: the run itself and its create requests.

Every property holds for every behaviour of the routines in `Env`.

Where the code's behaviour is surprising, the model follows the code:

- **Dock counts** are read with `Atoi` and may be negative. No non-negativity check exists.
- **User types** other than "Customer" pass through unchanged. The field is not
  restricted to Subscriber/Casual. A raw "Casual" also comes out as "Casual", so the
  output is "Casual" when the raw value is "Customer" *or* "Casual".
- **The two layouts** are chosen by file name, not by column count.
- **A trip that cannot be encoded ends the run.** `json.Marshal` refuses a NaN or infinite
  duration, distance or speed, for example from a zero duration. The program then exits
  with status 1 instead of skipping that trip.

There are two exceptions, both listed under "## Findings": the birth-year overflow and the
dock-count error path. For each, the model defines the code as written and a corrected
version. Every member that composes the run uses the corrected version:
`Stations.BuildRegistry`, `Trips.ReadRowFields`, `Trips.Enrich`, `Loader.ProcessTrips`, `Loader.Run` and `Loader.Load`.

A Go runtime panic (`line[k]` on a record that is too short) ends the run too, but
with exit status 2 and a stack trace instead of a log line and status 1. It is modelled
as `Fatal(RowTooShort(k, length))`. The contracts of the row decisions fix `length` to the
record's length and `k` to the first field the code reads that is missing.

## Model

| member | source | states |
|---|---|---|
| Text.TrimSpace | main.go:228 | the city is the slice of the field between its leading and trailing whitespace runs (unicode.IsSpace), and it neither starts nor ends with whitespace |
| Text.TrimSpaceIdempotent | main.go:228 | trimming an already trimmed city changes nothing |
| Text.TrimSpaceRemovesPadding | main.go:228 | whitespace padded around a trimmed value is exactly what the trim removes |
| Text.RemoveCommas | main.go:403 | the duration text handed to ParseFloat has no comma, keeps the count of every other character, and is unchanged when it had no comma |
| Text.RemoveCommasAppend | main.go:403 | comma removal commutes with concatenation, which together with its single-character behaviour fixes its result |
| Text.RemoveCommasIdempotent | main.go:403 | stripping commas twice is stripping them once |
| Text.DecimalRoundTrip | main.go:549 | the document ID rendered with %d reads back as the trip ID |
| Text.DecimalStringInjective | main.go:549 | different trip IDs render to different document IDs |
| Rows.FirstFatalAt | main.go:302-311 | the run's error is that of the fatal row that no earlier fatal row precedes |
| Rows.FatalRowEndsRun | main.go:203-223 | a fatal row met by the loops determines the run's error whatever the unread rows and files hold |
| Rows.Scan | main.go:295-314 | the scan over files and rows succeeds exactly when no row is fatal, reports the first fatal row's error otherwise, and yields the emitted values in row order |
| Stations.ParseStationRow | main.go:213-256 | header rows, and only they, are skipped; a station is produced exactly when the row has its layout's columns and both ID and dock count parse; 2017 files give a trimmed city from column 2 and latitude/longitude/docks from 3/4/5, other files give "Chicago" and 2/3/4, name from column 1, coordinates kept as text; a bad ID ends the run before anything else is read; a short row, a bad ID and a bad dock count are the only fatal outcomes; a row with all its columns never panics (corrected dock-count error path, see Findings); a panic names the record's length and the first missing column in the order the code reads them |
| Stations.ParseStationRowAsWritten | main.go:213-256 | the code as written: the header and only it is skipped; an emitted station has every column of its layout; the dock-count error names column 5 whatever the layout; an older-layout row with a valid ID and a bad dock count panics on `line[5]` when it has five fields and otherwise reports its sixth field; a panic names the row's length and a column it lacks |
| Stations.AsWrittenDiffersOnDockError | main.go:239-247 | the code as written and the corrected decision differ exactly on an older-layout row with a valid ID, at least five columns and an unparseable dock count, unless a sixth column repeats the dock count; there the corrected decision reports the dock count |
| Stations.LegacyDockErrorPanics | main.go:239-247 | a full five-column legacy row with a bad dock count panics as written but reports the dock count when corrected |
| Stations.LatestEntryIsLastRow | main.go:249-256 | the registry entry for an ID is the station of the last row with that ID |
| Stations.LatestEntryNone | main.go:249-256 | an ID has no entry exactly when no row emits a station with it |
| Stations.LatestEntryAppend | main.go:196-257 | rows read later override earlier ones for the IDs they mention; other IDs keep their earlier entry |
| Stations.RegistryOfIsLatest | main.go:249-256 | folding map insertions over the rows gives, for every ID, the last row's station and nothing for unseen IDs |
| Stations.LastFileWins | main.go:185-196 | loading earlier files and then later ones: an ID mentioned by the later files holds their last entry; every other ID keeps the earlier files' entry |
| Stations.CityColumnFilesAreLast | main.go:185-237 | of the nine station files in load order, exactly the last two (the 2017 files) use the layout with a city column |
| Stations.BuildRegistry | main.go:183-261 | the registry build succeeds exactly when no station row is fatal, reports the first fatal row's error otherwise, and maps each ID to the station of the last row with that ID, keyed by the station's own ID |
| Stations.FoldStations | main.go:196-257 | the nested loops over station files and rows, for any row decision: stop at the first fatal row, otherwise insert every emitted station under its ID so the last row with an ID wins |
| Timestamps.FirstParse | main.go:337-355 | the cascade fails exactly when every layout fails |
| Timestamps.FirstParsePicksFirst | main.go:337-355 | the cascade's result is the instant of the first layout, in order, that parses |
| Timestamps.FirstParseIgnoresLaterLayouts | main.go:368-386 | no layout after the first successful one is consulted: parsers that agree up to it give the same result |
| Timestamps.ParseTimestamp | main.go:336-356 | a timestamp field fails exactly when all five layouts fail on the field followed by a space and the zone suffix |
| Trips.NormalizeUserType | main.go:414-417 | "Customer" never survives; the result is "Casual" exactly when the raw label is "Customer" or "Casual"; other labels pass through |
| Trips.UserTypeIdempotent | main.go:414-417 | normalizing twice gives the same result as once |
| Trips.GenderOf | main.go:419-422 | gender is absent exactly when the field is empty and otherwise equals the field |
| Trips.BirthOf | main.go:424-440 | empty or unparseable birth year: both year and age absent, never fatal; a parsed year y > 0 gives year y and age 2018 - y (corrected, see Findings) |
| Trips.BirthOfAsWritten | main.go:424-440 | the code as written differs from the corrected reading exactly when Atoi fails yet returns a positive integer, which it then keeps as the birth year |
| Trips.OverflowingBirthYearIsKept | main.go:426-439 | for "99999999999999999999", on which Atoi returns MaxInt64 with a range error, the code as written keeps MaxInt64 as the birth year, the corrected reading drops it |
| Trips.ReadRowFields | main.go:312-440 | header skipped; trip ID, start, end, bike ID and duration checked in that order, each fatal exactly when all earlier ones passed; day of week from the end time; commas stripped from the duration; rider fields normalized; a panic names the record's length and the first missing column in the order the code reads them |
| Trips.JoinStations | main.go:442-547 | an unparseable origin ID is fatal; an unknown origin is a skip decided before the destination ID is parsed; then the destination ID and lookup; then the four coordinates; then a trip whose duration, distance or speed is not finite is fatal (json.Marshal); an emitted trip carries both registry stations' name, city, geo and docks |
| Trips.Enrich | main.go:302-547 | the whole trip decision: the header is skipped and never fatal; the fatal checks fire in the order trip ID, start, end, bike ID, duration, origin ID, destination ID, coordinates, then encodability of the float fields, and no other fatal outcome exists; unknown stations skip; an emitted trip has both station IDs in the registry with attributes copied, finite float fields, day of week from the end time, and normalized rider fields; a panic names the record's length and the first missing column in the order the code reads them |
| Trips.UnknownOriginIgnoresDestination | main.go:453-478 | a row with an unknown origin is skipped, not fatal, whatever its destination column holds |
| Loader.RequestFor | main.go:549-555 | each emitted trip's create request goes to index "divvy" with type "_doc", carries the trip, and is keyed by the %d rendering of its ID, which reads back as the ID |
| Loader.DocIdsFollowTripIds | main.go:549-556 | two requests share a document ID exactly when their trips share a trip ID |
| Loader.EmittedTripsJoinRegistry | main.go:453-494 | every trip a run emits has both stations in the registry with their attributes copied |
| Loader.ProcessTrips | main.go:295-559 | the trip loop succeeds exactly when no trip row is fatal and then queues one create request per emitted trip, in order |
| Loader.RunWith | main.go:183-559 | for any station and trip decisions, the registry is complete before any trip is read: a fatal station row ends the run whatever the trip files hold; otherwise trips are processed against the registry of the last-wins fold |
| Loader.Run | main.go:183-559 | the registry is complete before any trip is read: a fatal station row ends the run whatever the trip files hold; otherwise trips are processed against the registry of the last-wins fold |
| Loader.Load | main.go:183-559 | the run over the fixed lists: the nine station files, then the four trip files, in the order the loader names them |

## Left out

- The Elasticsearch client, index exists/create/delete, the mapping file, the `-delete` flag and environment variables (main.go:85-177) are external I/O and configuration.
- The bulk processor (main.go:62-74, 171-177, 556, 561-567) is a concurrent foreign library. The model stops at the ordered sequence of create requests. It does not model batching, the four workers, the fatal `checkForErrors` callback, the final `Flush`, or which requests a store received before a fatal row ended the run.
- Haversine distance, `hsin`, speed and `dur / 60.0` (main.go:76-79, 412, 528-539) are floating-point trigonometry and division, including the unguarded division by a zero duration. The model keeps whether `ParseFloat` accepts the duration and the four coordinates, and whether the results are finite (see the json.Marshal line below).
- Trips.Enrich: the emitted trip carries no duration in minutes, distance or speed, because those are the floating-point values above. It carries the comma-free duration text instead.
- Go's `time.Parse` semantics, `time.LoadLocation` and its failure (main.go:329-335, 359-365), and `time.Now()`: each layout is an uninterpreted partial parser. The zone suffix is one value per run, while the source reads the clock twice per row.
- CSV reading (main.go:200-212, 300-311) is I/O. That covers the ignored `os.Open` error, read errors and encoding/csv's field-count check. Each file is given as its sequence of records.
- `strconv.Atoi` and `strconv.ParseFloat` internals are parameters of `Env`. Integer widths need no wrap-around: Atoi's results lie in the int64 range, and the only arithmetic, 2018 - y for y > 0, cannot overflow.
- Trips.Enrich: whether json.Marshal accepts a trip (main.go:542-547) is modelled as the abstract routine `finiteFloats` over the duration and coordinate texts. The model does not derive which inputs make the float fields NaN or infinite: a zero duration, or "NaN"/"Inf" texts, are examples.
- Stations.BuildRegistry: the run uses the corrected station decision, so a five-column older-layout row with a bad dock count ends the run with the dock-count error instead of a panic. `Stations.ParseStationRowAsWritten` is the code as written (see Findings).
- Trips.Enrich: the run uses the corrected birth-year reading, so an out-of-range birth year is dropped instead of kept as MaxInt64. `Trips.BirthOfAsWritten` is the code as written (see Findings).
- Trips.ReadRowFields: uses the corrected birth-year reading. An out-of-range birth year, which the source keeps as MaxInt64 with age 2018 - MaxInt64, gives no birth year or age.
- Loader.ProcessTrips: runs the corrected trip decision, so its requests carry no birth year where the source would send MaxInt64. Its trips also carry no duration in minutes, distance or speed, only the comma-free duration text.
- Loader.Run: inherits the two corrections above.
- Loader.Load: calls `Loader.Run` and so inherits the same two corrections.
- Text.TrimSpace: works on Unicode code points. Go strings are bytes, and invalid UTF-8, which `strings.TrimSpace` passes through, cannot be represented.
- zerolog logging is left out.

## Findings

| source | as written | input that shows it | evidently intended | confidence | as-written member | corrected member |
|---|---|---|---|---|---|---|
| main.go:424-440 | after a failed `Atoi` the code logs and then uses the returned integer anyway; Atoi returns MaxInt64 for an out-of-range number | birth-year field "99999999999999999999" gives BirthYear 9223372036854775807 and Age 2018 - 9223372036854775807 | an unparseable birth year is logged and treated as absent | high (Go's documented Atoi range-error value), not executed | Trips.BirthOfAsWritten | Trips.BirthOf |
| main.go:239-247 | the dock-count error path logs `line[5]`, which a five-field row of the older layout lacks; a wider older-layout row logs its sixth field instead of the dock count | file "Divvy_Stations_2013.csv", row ["5", "State St", "41.8", "-87.6", "n/a"]: index-out-of-range panic (exit status 2) instead of the logged dock-count error and exit status 1 | log the dock-count field and exit 1 like every other fatal error | medium (needs a station file with exactly five columns), not executed | Stations.ParseStationRowAsWritten, Stations.AsWrittenDiffersOnDockError | Stations.ParseStationRow |

=== FILE: externals.dfy ===
/**
 * The library routines and ambient values the loader calls into but this model does not
 * define: Go's strconv and time packages and the wall clock. Each becomes a field of `Env`,
 * so every property proved below holds whatever these routines do.
 */
module Externals {
  import opened Wrappers

  /**
   * What strconv.Atoi hands back. Go returns an integer together with the error, and the
   * integer is meaningful even on failure: 0 for a syntax error, the clamped bound
   * (the int64 bound on the side it overflows) for a number out of range.
   */
  datatype IntParse = Parsed(value: int) | Invalid(value: int)

  /** A moment as Go's time.Time holds it; the model only hands it to the routines of `Env`. */
  datatype Instant = Instant(unixSeconds: int, nanos: int, zoneOffsetSeconds: int)

  /**
   * The environment of one run.
   * - atoi: strconv.Atoi.
   * - parseFloat: whether strconv.ParseFloat(s, 64) succeeds (its value is not modelled).
   * - timeParse: time.Parse(layout, value).
   * - formatRfc3339: Time.Format(time.RFC3339).
   * - weekday: Time.Weekday().String().
   * - finiteFloats: whether the three floating-point fields of a trip (duration in minutes,
   *   distance and speed) are all finite, given the comma-free duration text and the
   *   origin's and destination's latitude and longitude texts, all of which ParseFloat has
   *   accepted. json.Marshal fails exactly when one of them is NaN or infinite, as a zero
   *   duration or a "NaN" or "Inf" input makes them.
   * - zoneSuffix: the current America/Chicago offset and abbreviation rendered with
   *   "-0700 MST", appended to every timestamp before parsing.
   */
  datatype Env = Env(
    atoi: string -> IntParse,
    parseFloat: string -> bool,
    timeParse: (string, string) -> Option<Instant>,
    formatRfc3339: Instant -> string,
    weekday: Instant -> string,
    finiteFloats: (string, string, string, string, string) -> bool,
    zoneSuffix: string)

  /** The largest Go int on a 64-bit platform, which Atoi returns for a too-large number. */
  const MaxInt64: int := 0x7FFF_FFFF_FFFF_FFFF
}

=== FILE: loader.dfy ===
/**
 * The loader's run: build the station registry from every station file, then enrich every
 * trip row of every trip file against it, turning each emitted trip into one create-only
 * indexing request keyed by the trip ID. Any fatal row ends the run.
 */
module Loader {
  import opened Wrappers
  import opened Rows
  import opened Stations
  import opened Trips
  import opened Externals
  import Text

  /** The trip files the loader reads, in order. */
  const TripFileNames: seq<string> := [
    "Divvy_Trips_2017_Q4.csv",
    "Divvy_Trips_2017_Q3.csv",
    "Divvy_Trips_2017_Q2.csv",
    "Divvy_Trips_2017_Q1.csv"
  ]

  /** The index every trip is written to. */
  const IndexName := "divvy"

  /** A bulk "create" request: it fails rather than overwrite a document with the same ID. */
  datatype CreateRequest = CreateRequest(index: string, docType: string, docId: string, doc: Trip)

  /** The request the loader queues for one emitted trip. */
  function RequestFor(t: Trip): (r: CreateRequest)
    // the document ID is the %d rendering of the trip ID: no leading zero, no "-0"
    ensures r.docId == Text.DecimalString(t.id)
    ensures Text.ParseDecimal(r.docId) == Some(t.id)
    ensures r.index == IndexName && r.docType == "_doc" && r.doc == t
  {
    Text.DecimalRoundTrip(t.id);
    CreateRequest(IndexName, "_doc", Text.DecimalString(t.id), t)
  }

  /** The requests for a sequence of emitted trips, one each, in order. */
  function RequestsOf(trips: seq<Trip>): (r: seq<CreateRequest>)
    ensures |r| == |trips|
    ensures forall k :: 0 <= k < |r| ==> r[k] == RequestFor(trips[k])
  {
    seq(|trips|, k requires 0 <= k < |trips| => RequestFor(trips[k]))
  }

  /** Two trips get the same document ID only if they have the same trip ID. */
  lemma DocIdsFollowTripIds(a: Trip, b: Trip)
    ensures RequestFor(a).docId == RequestFor(b).docId <==> a.id == b.id
  {
    Text.DecimalStringInjective(a.id, b.id);
  }

  /** The trip decision against a fixed registry, in the shape the row-sequence definitions take. */
  function TripParser(env: Env, reg: Registry): RowParser<Trip> {
    (name, row) => Enrich(env, reg, row)
  }

  /** An emitted trip joined with two registry stations whose attributes it copies. */
  predicate JoinedWith(reg: Registry, t: Trip) {
    && t.fromStation.id in reg && t.toStation.id in reg
    && t.fromStation == JoinStation(t.fromStation.id, reg[t.fromStation.id])
    && t.toStation == JoinStation(t.toStation.id, reg[t.toStation.id])
  }

  /** Every trip a run emits has both its stations in the registry, with their attributes copied. */
  lemma EmittedTripsJoinRegistry(env: Env, reg: Registry, files: seq<CsvFile>)
    ensures forall t :: t in Emitted(FileOutcomes(TripParser(env, reg), files)) ==> JoinedWith(reg, t)
  {
    var parse := TripParser(env, reg);
    forall name, row | parse(name, row).Emit?
      ensures JoinedWith(reg, parse(name, row).value)
    {
      assert parse(name, row) == Enrich(env, reg, row);
    }
    EmittedSatisfy(parse, files, t => JoinedWith(reg, t));
  }

  /**
   * The trip loop of main.go: every row of every trip file in order, stopping at the first
   * fatal row. It succeeds exactly when no row is fatal, and then yields one request per
   * emitted trip, in order.
   */
  method ProcessTrips(env: Env, reg: Registry, files: seq<CsvFile>) returns (r: Result<seq<CreateRequest>, FatalError>)
    ensures var outs := FileOutcomes(TripParser(env, reg), files);
      r == if FirstFatal(outs).Some? then Failure(FirstFatal(outs).value) else Success(RequestsOf(Emitted(outs)))
  {
    var trips := Scan(TripParser(env, reg), files);
    if trips.Failure? {
      return Failure(trips.error);
    }
    return Success(RequestsOf(trips.value));
  }

  /**
   * The whole run: the registry is built in full before any trip row is read, so a fatal
   * station row ends the run whatever the trip files hold; otherwise the trip files are
   * processed against the registry the station files determine.
   */
  method Run(env: Env, stationFiles: seq<CsvFile>, tripFiles: seq<CsvFile>) returns (r: Result<seq<CreateRequest>, FatalError>)
    ensures var stationOuts := FileOutcomes(StationParser(env), stationFiles);
      FirstFatal(stationOuts).Some? ==> r == Failure(FirstFatal(stationOuts).value)
    ensures var stationOuts := FileOutcomes(StationParser(env), stationFiles);
      var tripOuts := FileOutcomes(TripParser(env, RegistryOf(stationOuts)), tripFiles);
      FirstFatal(stationOuts).None? ==>
        r == if FirstFatal(tripOuts).Some? then Failure(FirstFatal(tripOuts).value) else Success(RequestsOf(Emitted(tripOuts)))
  {
    r := RunWith(StationParser(env), reg => TripParser(env, reg), stationFiles, tripFiles);
  }

  /**
   * The two phases of a run for any station decision and any trip decision against a
   * registry: station files first, to completion, then trip files against the result.
   */
  method RunWith(stationParse: RowParser<Station>, tripParse: Registry -> RowParser<Trip>,
                 stationFiles: seq<CsvFile>, tripFiles: seq<CsvFile>)
    returns (r: Result<seq<CreateRequest>, FatalError>)
    ensures var stationOuts := FileOutcomes(stationParse, stationFiles);
      FirstFatal(stationOuts).Some? ==> r == Failure(FirstFatal(stationOuts).value)
    ensures var stationOuts := FileOutcomes(stationParse, stationFiles);
      var tripOuts := FileOutcomes(tripParse(RegistryOf(stationOuts)), tripFiles);
      FirstFatal(stationOuts).None? ==>
        r == if FirstFatal(tripOuts).Some? then Failure(FirstFatal(tripOuts).value) else Success(RequestsOf(Emitted(tripOuts)))
  {
    var built := FoldStations(stationParse, stationFiles);
    if built.Failure? {
      return Failure(built.error);
    }
    var trips := Scan(tripParse(built.value), tripFiles);
    if trips.Failure? {
      return Failure(trips.error);
    }
    return Success(RequestsOf(trips.value));
  }

  /** The files with these names, in order, as `read` gives their records. */
  function FilesNamed(names: seq<string>, read: string -> seq<Row>): (r: seq<CsvFile>)
    ensures |r| == |names|
    ensures forall k :: 0 <= k < |r| ==> r[k].name == names[k] && r[k].rows == read(names[k])
  {
    seq(|names|, k requires 0 <= k < |names| => CsvFile(names[k], read(names[k])))
  }

  /**
   * The loader over its fixed file lists: the nine station files, then the four trip
   * files, each read through `read`.
   */
  method Load(env: Env, read: string -> seq<Row>) returns (r: Result<seq<CreateRequest>, FatalError>)
    ensures var stationOuts := FileOutcomes(StationParser(env), FilesNamed(StationFileNames, read));
      FirstFatal(stationOuts).Some? ==> r == Failure(FirstFatal(stationOuts).value)
    ensures var stationOuts := FileOutcomes(StationParser(env), FilesNamed(StationFileNames, read));
      var tripOuts := FileOutcomes(TripParser(env, RegistryOf(stationOuts)), FilesNamed(TripFileNames, read));
      FirstFatal(stationOuts).None? ==>
        r == if FirstFatal(tripOuts).Some? then Failure(FirstFatal(tripOuts).value) else Success(RequestsOf(Emitted(tripOuts)))
  {
    r := Run(env, FilesNamed(StationFileNames, read), FilesNamed(TripFileNames, read));
  }
}

=== FILE: rows.dfy ===
/**
 * CSV rows and the three-way decision the loader makes about each one: emit something,
 * skip the row, or end the run. Also the per-file and per-run sequences of those decisions
 * that the loader's loops are specified against.
 */
module Rows {
  import opened Wrappers

  /** One record as encoding/csv returns it: its fields in column order. */
  type Row = seq<string>

  /** A named input file and its records, header included, in file order. */
  datatype CsvFile = CsvFile(name: string, rows: seq<Row>)

  /**
   * Every way the loader ends the run. Each is logged and followed by os.Exit(1), except
   * RowTooShort, which is Go's runtime panic on reading `line[index]` from a record with
   * `length` fields. UnencodableTrip is json.Marshal refusing a trip whose floating-point
   * fields include NaN or an infinity.
   */
  datatype FatalError =
    | RowTooShort(index: nat, length: nat)
    | MalformedStationId(field: string)
    | MalformedDockCount(field: string)
    | MalformedTripId(field: string)
    | UnparseableStartTime(field: string)
    | UnparseableEndTime(field: string)
    | MalformedBikeId(field: string)
    | MalformedDuration(field: string)
    | MalformedFromStationId(field: string)
    | MalformedToStationId(field: string)
    | MalformedCoordinate(field: string)
    | UnencodableTrip(id: int)

  /** Why a row produced nothing without ending the run. */
  datatype SkipReason = HeaderRow | UnknownFromStation(id: int) | UnknownToStation(id: int)

  /**
   * The loader's decision about one row. It doubles as the failure-compatible type of the
   * intermediate steps of that decision, so `:-` stops at the first Skip or Fatal.
   */
  datatype RowOutcome<+T> = Emit(value: T) | Skip(reason: SkipReason) | Fatal(error: FatalError)
  {
    predicate IsFailure() {
      !Emit?
    }

    function PropagateFailure<U>(): RowOutcome<U>
      requires !Emit?
    {
      if Skip? then Skip(reason) else Fatal(error)
    }

    function Extract(): T
      requires Emit?
    {
      value
    }
  }

  /** A row decision that may depend on the name of the file the row comes from. */
  type RowParser<T> = (string, Row) -> RowOutcome<T>

  /** The decisions about the rows of one file, in row order. */
  function RowOutcomes<T>(parse: RowParser<T>, name: string, rows: seq<Row>): seq<RowOutcome<T>>
  {
    seq(|rows|, k requires 0 <= k < |rows| => parse(name, rows[k]))
  }

  /** The decisions about every row of every file, files in the order given. */
  function FileOutcomes<T>(parse: RowParser<T>, files: seq<CsvFile>): seq<RowOutcome<T>>
    decreases |files|
  {
    if files == [] then []
    else
      var last := files[|files| - 1];
      FileOutcomes(parse, files[..|files| - 1]) + RowOutcomes(parse, last.name, last.rows)
  }

  /** The error of the earliest Fatal decision, if there is one. */
  function FirstFatal<T>(outs: seq<RowOutcome<T>>): (r: Option<FatalError>)
    ensures r.None? <==> forall k :: 0 <= k < |outs| ==> !outs[k].Fatal?
    ensures r.Some? ==> Fatal(r.value) in outs
    decreases |outs|
  {
    if outs == [] then None
    else if outs[0].Fatal? then Some(outs[0].error)
    else FirstFatal(outs[1..])
  }

  /** The values of the Emit decisions, in order. */
  function Emitted<T>(outs: seq<RowOutcome<T>>): seq<T>
    decreases |outs|
  {
    if outs == [] then []
    else
      var prefix := Emitted(outs[..|outs| - 1]);
      if outs[|outs| - 1].Emit? then prefix + [outs[|outs| - 1].value] else prefix
  }

  /** FirstFatal picks the Fatal decision that no earlier Fatal decision precedes. */
  lemma {:induction false} FirstFatalAt<T>(outs: seq<RowOutcome<T>>, k: nat)
    requires k < |outs| && outs[k].Fatal?
    requires forall j :: 0 <= j < k ==> !outs[j].Fatal?
    ensures FirstFatal(outs) == Some(outs[k].error)
    decreases k
  {
    if k > 0 {
      FirstFatalAt(outs[1..], k - 1);
    }
  }

  /** A run that has already met a Fatal row ends with that row's error, whatever follows. */
  lemma {:induction false} FirstFatalAppend<T>(a: seq<RowOutcome<T>>, b: seq<RowOutcome<T>>)
    ensures FirstFatal(a + b) == if FirstFatal(a).Some? then FirstFatal(a) else FirstFatal(b)
    decreases |a|
  {
    if a != [] {
      assert (a + b)[1..] == a[1..] + b;
      FirstFatalAppend(a[1..], b);
    } else {
      assert a + b == b;
    }
  }

  /** The decisions about a list of files are those about its parts, one after the other. */
  lemma {:induction false} FileOutcomesAppend<T>(parse: RowParser<T>, a: seq<CsvFile>, b: seq<CsvFile>)
    ensures FileOutcomes(parse, a + b) == FileOutcomes(parse, a) + FileOutcomes(parse, b)
    decreases |b|
  {
    if b == [] {
      assert a + b == a;
    } else {
      var last := b[|b| - 1];
      assert (a + b)[..|a + b| - 1] == a + b[..|b| - 1];
      FileOutcomesAppend(parse, a, b[..|b| - 1]);
    }
  }

  /** The decisions about a list of rows are those about its parts, one after the other. */
  lemma RowOutcomesAppend<T>(parse: RowParser<T>, name: string, a: seq<Row>, b: seq<Row>)
    ensures RowOutcomes(parse, name, a + b) == RowOutcomes(parse, name, a) + RowOutcomes(parse, name, b)
  {
  }

  /** Reading one more row of a file extends the decisions made so far by that row's. */
  lemma RowOutcomesStep<T>(parse: RowParser<T>, done: seq<RowOutcome<T>>, file: CsvFile, j: nat)
    requires j < |file.rows|
    ensures done + RowOutcomes(parse, file.name, file.rows[..j + 1])
         == (done + RowOutcomes(parse, file.name, file.rows[..j])) + [parse(file.name, file.rows[j])]
  {
    assert file.rows[..j + 1] == file.rows[..j] + [file.rows[j]];
    RowOutcomesAppend(parse, file.name, file.rows[..j], [file.rows[j]]);
  }

  /** Reading all of one more file extends the decisions made so far by that file's. */
  lemma FileOutcomesStep<T>(parse: RowParser<T>, files: seq<CsvFile>, i: nat)
    requires i < |files|
    ensures FileOutcomes(parse, files[..i + 1])
         == FileOutcomes(parse, files[..i]) + RowOutcomes(parse, files[i].name, files[i].rows[..|files[i].rows|])
  {
    assert files[i].rows[..|files[i].rows|] == files[i].rows;
    assert files[..i + 1][..i] == files[..i];
  }

  /** The decisions about all files, cut at row j of file i. */
  lemma FileOutcomesSplit<T>(parse: RowParser<T>, files: seq<CsvFile>, i: nat, j: nat)
    requires i < |files| && j <= |files[i].rows|
    ensures FileOutcomes(parse, files)
         == (FileOutcomes(parse, files[..i]) + RowOutcomes(parse, files[i].name, files[i].rows[..j]))
          + (RowOutcomes(parse, files[i].name, files[i].rows[j..]) + FileOutcomes(parse, files[i + 1..]))
  {
    var file := files[i];
    assert files == files[..i + 1] + files[i + 1..];
    FileOutcomesAppend(parse, files[..i + 1], files[i + 1..]);
    FileOutcomesStep(parse, files, i);
    assert file.rows[..|file.rows|] == file.rows[..j] + file.rows[j..];
    RowOutcomesAppend(parse, file.name, file.rows[..j], file.rows[j..]);
  }

  /**
   * When the loops over files and rows meet a Fatal row before any other, that row's error
   * is the first fatal error of the whole input, whatever the unread rows hold.
   */
  lemma FatalRowEndsRun<T>(parse: RowParser<T>, files: seq<CsvFile>, i: nat, j: nat)
    requires i < |files| && j < |files[i].rows|
    requires FirstFatal(FileOutcomes(parse, files[..i]) + RowOutcomes(parse, files[i].name, files[i].rows[..j])).None?
    requires parse(files[i].name, files[i].rows[j]).Fatal?
    ensures FirstFatal(FileOutcomes(parse, files)) == Some(parse(files[i].name, files[i].rows[j]).error)
  {
    var file := files[i];
    var seen := FileOutcomes(parse, files[..i]) + RowOutcomes(parse, file.name, file.rows[..j]);
    var rest := RowOutcomes(parse, file.name, file.rows[j..]) + FileOutcomes(parse, files[i + 1..]);
    FileOutcomesSplit(parse, files, i, j);
    assert rest[0] == parse(file.name, file.rows[j]);
    FirstFatalAppend(seen, rest);
  }

  /** A property every emitted value of a parser has, every emitted value of a run has. */
  lemma {:induction false} EmittedSatisfy<T>(parse: RowParser<T>, files: seq<CsvFile>, P: T -> bool)
    requires forall name, row :: parse(name, row).Emit? ==> P(parse(name, row).value)
    ensures forall t :: t in Emitted(FileOutcomes(parse, files)) ==> P(t)
    decreases |files|
  {
    if files != [] {
      var last := files[|files| - 1];
      EmittedSatisfy(parse, files[..|files| - 1], P);
      EmittedAppendSatisfy(FileOutcomes(parse, files[..|files| - 1]), RowOutcomes(parse, last.name, last.rows), P);
    }
  }

  lemma {:induction false} EmittedAppendSatisfy<T>(a: seq<RowOutcome<T>>, b: seq<RowOutcome<T>>, P: T -> bool)
    requires forall t :: t in Emitted(a) ==> P(t)
    requires forall k :: 0 <= k < |b| && b[k].Emit? ==> P(b[k].value)
    ensures forall t :: t in Emitted(a + b) ==> P(t)
    decreases |b|
  {
    if b != [] {
      assert (a + b)[..|a + b| - 1] == a + b[..|b| - 1];
      EmittedAppendSatisfy(a, b[..|b| - 1], P);
    } else {
      assert a + b == a;
    }
  }

  /**
   * The loader's scan over input files: every row of every file in order, stopping at the
   * first Fatal row. It succeeds exactly when no row is fatal, and then yields the emitted
   * values in order.
   */
  method Scan<T>(parse: RowParser<T>, files: seq<CsvFile>) returns (r: Result<seq<T>, FatalError>)
    ensures var outs := FileOutcomes(parse, files);
      r == if FirstFatal(outs).Some? then Failure(FirstFatal(outs).value) else Success(Emitted(outs))
  {
    var emitted: seq<T> := [];
    var i := 0;
    while i < |files|
      invariant 0 <= i <= |files|
      invariant FirstFatal(FileOutcomes(parse, files[..i])).None?
      invariant emitted == Emitted(FileOutcomes(parse, files[..i]))
    {
      var file := files[i];
      var done := FileOutcomes(parse, files[..i]);
      var j := 0;
      assert done + RowOutcomes(parse, file.name, file.rows[..0]) == done;
      while j < |file.rows|
        invariant 0 <= j <= |file.rows|
        invariant FirstFatal(done + RowOutcomes(parse, file.name, file.rows[..j])).None?
        invariant emitted == Emitted(done + RowOutcomes(parse, file.name, file.rows[..j]))
      {
        var seen := done + RowOutcomes(parse, file.name, file.rows[..j]);
        var out := parse(file.name, file.rows[j]);
        if out.Fatal? {
          FatalRowEndsRun(parse, files, i, j);
          return Failure(out.error);
        }
        RowOutcomesStep(parse, done, file, j);
        FirstFatalAppend(seen, [out]);
        assert (seen + [out])[..|seen|] == seen;
        if out.Emit? {
          emitted := emitted + [out.value];
        }
        j := j + 1;
      }
      FileOutcomesStep(parse, files, i);
      i := i + 1;
    }
    assert files[..i] == files;
    return Success(emitted);
  }
}

=== FILE: stations.dfy ===
/**
 * The station registry: parsing one station row under the column layout its file uses,
 * and folding every row of every station file, in declared order, into a map from station
 * ID to station in which a later row with the same ID replaces an earlier one.
 */
module Stations {
  import opened Wrappers
  import opened Externals
  import opened Rows
  import Text

  datatype Station = Station(
    id: int,
    name: string,
    city: string,
    latitude: string,   // kept as written in the file; parsed only when a trip needs it
    longitude: string,
    totalDocks: int)

  type Registry = map<int, Station>

  /** The station files in the order the loader reads them; later files override earlier ones. */
  const StationFileNames: seq<string> := [
    "Divvy_Stations_2013.csv",
    "Divvy_Stations_2014-Q1Q2.csv",
    "Divvy_Stations_2014-Q3Q4.csv",
    "Divvy_Stations_2015.csv",
    "Divvy_Stations_2016_Q1Q2.csv",
    "Divvy_Stations_2016_Q3.csv",
    "Divvy_Stations_2016_Q4.csv",
    "Divvy_Stations_2017_Q1Q2.csv",
    "Divvy_Stations_2017_Q3Q4.csv"
  ]

  /** First field of a station file's header row. */
  const StationHeader := "id"

  /** City of every station read from a file without a city column. */
  const DefaultCity := "Chicago"

  /**
   * The two station-file layouts. Both have the ID at column 0 and the name at column 1.
   * CityColumn (the 2017 files) has the city at 2 and latitude, longitude and dock count at
   * 3, 4 and 5; NoCityColumn (every older file) has latitude, longitude and dock count at
   * 2, 3 and 4.
   */
  datatype Layout = CityColumn | NoCityColumn
  {
    function LatitudeColumn(): nat {
      if CityColumn? then 3 else 2
    }

    function LongitudeColumn(): nat {
      if CityColumn? then 4 else 3
    }

    function DocksColumn(): nat {
      if CityColumn? then 5 else 4
    }

    /** How many fields a row needs before the loader can read every column it uses. */
    function Width(): nat {
      DocksColumn() + 1
    }
  }

  /** The layout is chosen by file name alone. */
  function LayoutOf(fileName: string): Layout {
    if fileName == "Divvy_Stations_2017_Q1Q2.csv" || fileName == "Divvy_Stations_2017_Q3Q4.csv"
    then CityColumn
    else NoCityColumn
  }

  /**
   * The loader's decision about one station row: skip the header, end the run on a
   * non-numeric ID or dock count (or on a row too short for its layout), and otherwise emit
   * the station read from the columns of the file's layout. No partial station is ever
   * produced.
   */
  function ParseStationRow(env: Env, fileName: string, row: Row): (r: RowOutcome<Station>)
    // header rows, and only they, are skipped
    ensures r.Skip? <==> |row| > 0 && row[0] == StationHeader
    ensures r.Skip? ==> r.reason == HeaderRow
    // a station is produced exactly when the row is wide enough and both numbers parse
    ensures r.Emit? <==>
      && |row| >= LayoutOf(fileName).Width()
      && row[0] != StationHeader
      && env.atoi(row[0]).Parsed?
      && env.atoi(row[LayoutOf(fileName).DocksColumn()]).Parsed?
    // the two 2017 files: trimmed city at 2, latitude, longitude and docks at 3, 4, 5
    ensures r.Emit? && LayoutOf(fileName).CityColumn? ==>
      r.value == Station(env.atoi(row[0]).value, row[1], Text.TrimSpace(row[2]), row[3], row[4], env.atoi(row[5]).value)
    // every other file: city "Chicago", latitude, longitude and docks at 2, 3, 4
    ensures r.Emit? && LayoutOf(fileName).NoCityColumn? ==>
      r.value == Station(env.atoi(row[0]).value, row[1], DefaultCity, row[2], row[3], env.atoi(row[4]).value)
    // the ID is checked before anything else is read
    ensures r == Fatal(MalformedStationId(if |row| > 0 then row[0] else "")) <==>
      |row| > 0 && row[0] != StationHeader && env.atoi(row[0]).Invalid?
    // a bad dock count on a row with all its columns ends the run naming that field
    ensures r.Fatal? && r.error.MalformedDockCount? <==>
      && |row| >= LayoutOf(fileName).Width()
      && row[0] != StationHeader
      && env.atoi(row[0]).Parsed?
      && env.atoi(row[LayoutOf(fileName).DocksColumn()]).Invalid?
    ensures r.Fatal? && r.error.MalformedDockCount? ==> r.error.field == row[LayoutOf(fileName).DocksColumn()]
    // the only ways a station row ends the run
    ensures r.Fatal? ==> r.error.RowTooShort? || r.error.MalformedStationId? || r.error.MalformedDockCount?
    // a row that has every column of its layout never panics
    ensures r.Fatal? && r.error.RowTooShort? ==> |row| < LayoutOf(fileName).Width()
    // a panic names the first missing column among those read: line[0], then line[2] onwards
    ensures r.Fatal? && r.error.RowTooShort? ==>
      r.error.length == |row| && r.error.index == (if |row| == 0 then 0 else if |row| < 3 then 2 else |row|)
  {
    if |row| == 0 then Fatal(RowTooShort(0, 0))
    else if row[0] == StationHeader then Skip(HeaderRow)
    else if env.atoi(row[0]).Invalid? then Fatal(MalformedStationId(row[0]))
    else
      var layout := LayoutOf(fileName);
      // line[2] is the first column read after the ID
      if |row| < layout.Width() then Fatal(RowTooShort(if |row| < 3 then 2 else |row|, |row|))
      else
        var docks := row[layout.DocksColumn()];
        if env.atoi(docks).Invalid? then Fatal(MalformedDockCount(docks))
        else
          var city := if layout.CityColumn? then Text.TrimSpace(row[2]) else DefaultCity;
          Emit(Station(env.atoi(row[0]).value, row[1], city,
                       row[layout.LatitudeColumn()], row[layout.LongitudeColumn()], env.atoi(docks).value))
  }

  /**
   * The station-row decision as main.go writes it, field read by field read. Its dock-count
   * error path logs `line[5]` whatever the layout: in a five-column row of an older file
   * that index does not exist, so Go panics instead of logging and exiting with status 1;
   * in a wider older row it logs the sixth field rather than the dock count.
   */
  function ParseStationRowAsWritten(env: Env, fileName: string, row: Row): (r: RowOutcome<Station>)
    ensures r.Skip? <==> |row| > 0 && row[0] == StationHeader
    // whatever its error path logs, the dock-count error names column 5
    ensures r.Fatal? && r.error.MalformedDockCount? ==> |row| > 5 && r.error.field == row[5]
    // the dock-count error path panics on every five-column row
    ensures |row| == 5 && r.Fatal? ==> r.error.RowTooShort? || r.error.MalformedStationId?
    ensures r.Emit? ==> |row| >= LayoutOf(fileName).Width() && r.value.id == env.atoi(row[0]).value
    // an older-layout row with a valid ID and a bad dock count: a panic on five fields, the
    // sixth field logged on more
    ensures && LayoutOf(fileName).NoCityColumn? && |row| >= 5 && row[0] != StationHeader
            && env.atoi(row[0]).Parsed? && env.atoi(row[4]).Invalid? ==>
      r == if |row| == 5 then Fatal(RowTooShort(5, 5)) else Fatal(MalformedDockCount(row[5]))
    // a panic names the row's length and a column the row lacks
    ensures r.Fatal? && r.error.RowTooShort? ==> r.error.length == |row| && r.error.index >= |row|
  {
    if |row| == 0 then Fatal(RowTooShort(0, 0))
    else if row[0] == "id" then Skip(HeaderRow)
    else if env.atoi(row[0]).Invalid? then Fatal(MalformedStationId(row[0]))
    else if fileName == "Divvy_Stations_2017_Q1Q2.csv" || fileName == "Divvy_Stations_2017_Q3Q4.csv" then
      // reads line[2], line[3], line[4], line[5]
      if |row| <= 5 then Fatal(RowTooShort(if |row| <= 2 then 2 else |row|, |row|))
      else if env.atoi(row[5]).Invalid? then Fatal(MalformedDockCount(row[5]))
      else Emit(Station(env.atoi(row[0]).value, row[1], Text.TrimSpace(row[2]), row[3], row[4], env.atoi(row[5]).value))
    else
      // reads line[2], line[3], line[4]; the error message then reads line[5]
      if |row| <= 4 then Fatal(RowTooShort(if |row| <= 2 then 2 else |row|, |row|))
      else if env.atoi(row[4]).Invalid? then
        if |row| == 5 then Fatal(RowTooShort(5, 5)) else Fatal(MalformedDockCount(row[5]))
      else Emit(Station(env.atoi(row[0]).value, row[1], "Chicago", row[2], row[3], env.atoi(row[4]).value))
  }

  /**
   * The code as written and the corrected decision part ways exactly on a non-header row
   * of an older file, with a valid ID, at least five columns and a dock count that does not
   * parse, unless a sixth column happens to repeat the dock count: there the code panics or
   * logs the wrong field, and the corrected decision reports the dock count.
   */
  lemma AsWrittenDiffersOnDockError(env: Env, fileName: string, row: Row)
    ensures ParseStationRowAsWritten(env, fileName, row) != ParseStationRow(env, fileName, row) <==>
      && LayoutOf(fileName).NoCityColumn?
      && |row| >= 5 && row[0] != StationHeader && env.atoi(row[0]).Parsed? && env.atoi(row[4]).Invalid?
      && (|row| == 5 || row[5] != row[4])
    ensures ParseStationRowAsWritten(env, fileName, row) != ParseStationRow(env, fileName, row) ==>
      ParseStationRow(env, fileName, row) == Fatal(MalformedDockCount(row[4]))
  {
  }

  /**
   * A full five-column row of an older station file whose dock count does not parse makes
   * the code as written panic, while the corrected decision reports the dock count.
   */
  lemma LegacyDockErrorPanics(env: Env, fileName: string, row: Row)
    requires LayoutOf(fileName).NoCityColumn? && |row| == 5
    requires row[0] != StationHeader && env.atoi(row[0]).Parsed? && env.atoi(row[4]).Invalid?
    ensures ParseStationRowAsWritten(env, fileName, row) == Fatal(RowTooShort(5, 5))
    ensures ParseStationRow(env, fileName, row) == Fatal(MalformedDockCount(row[4]))
  {
  }

  /** Only the two 2017 files, the last two the loader reads, have the city column. */
  lemma CityColumnFilesAreLast()
    ensures forall k :: 0 <= k < |StationFileNames| ==> (LayoutOf(StationFileNames[k]).CityColumn? <==> k >= 7)
  {
  }

  /** The parser for station files, in the shape the row-sequence definitions take. */
  function StationParser(env: Env): RowParser<Station> {
    (name, row) => ParseStationRow(env, name, row)
  }

  /** The station of the last row, among outs, that emits a station with this ID. */
  function LatestEntry(outs: seq<RowOutcome<Station>>, id: int): Option<Station>
    decreases |outs|
  {
    if outs == [] then None
    else
      var last := outs[|outs| - 1];
      if last.Emit? && last.value.id == id then Some(last.value)
      else LatestEntry(outs[..|outs| - 1], id)
  }

  function Lookup(reg: Registry, id: int): Option<Station> {
    if id in reg then Some(reg[id]) else None
  }

  /** The registry the loader's fold builds from the decisions about station rows. */
  function RegistryOf(outs: seq<RowOutcome<Station>>): Registry
    decreases |outs|
  {
    if outs == [] then map[]
    else
      var reg := RegistryOf(outs[..|outs| - 1]);
      var last := outs[|outs| - 1];
      if last.Emit? then reg[last.value.id := last.value] else reg
  }

  /** The folded registry holds, for each ID, the station of the last row with that ID, and nothing else. */
  lemma {:induction false} RegistryOfIsLatest(outs: seq<RowOutcome<Station>>, id: int)
    ensures Lookup(RegistryOf(outs), id) == LatestEntry(outs, id)
    decreases |outs|
  {
    if outs != [] {
      RegistryOfIsLatest(outs[..|outs| - 1], id);
    }
  }

  /** Two registries that agree on every lookup are the same registry. */
  lemma RegistryExtensional(a: Registry, b: Registry)
    requires forall id :: Lookup(a, id) == Lookup(b, id)
    ensures a == b
  {
    forall id | id in a
      ensures id in b && a[id] == b[id]
    {
      assert Lookup(a, id) == Lookup(b, id);
    }
    forall id | id in b
      ensures id in a
    {
      assert Lookup(a, id) == Lookup(b, id);
    }
  }

  /**
   * LatestEntry names the row it should: the one that emits a station with this ID and
   * after which no row does.
   */
  lemma {:induction false} LatestEntryIsLastRow(outs: seq<RowOutcome<Station>>, id: int, k: nat)
    requires k < |outs| && outs[k].Emit? && outs[k].value.id == id
    requires forall j :: k < j < |outs| ==> !(outs[j].Emit? && outs[j].value.id == id)
    ensures LatestEntry(outs, id) == Some(outs[k].value)
    decreases |outs|
  {
    if k < |outs| - 1 {
      LatestEntryIsLastRow(outs[..|outs| - 1], id, k);
    }
  }

  /** No entry exists for an ID exactly when no row emits a station with it. */
  lemma {:induction false} LatestEntryNone(outs: seq<RowOutcome<Station>>, id: int)
    ensures LatestEntry(outs, id).None? <==> forall k :: 0 <= k < |outs| ==> !(outs[k].Emit? && outs[k].value.id == id)
    decreases |outs|
  {
    if outs != [] {
      var prefix := outs[..|outs| - 1];
      LatestEntryNone(prefix, id);
      assert forall k :: 0 <= k < |prefix| ==> prefix[k] == outs[k];
    }
  }

  /** Rows appended later win: the latest entry of a + b is b's if b has one, a's otherwise. */
  lemma {:induction false} LatestEntryAppend(a: seq<RowOutcome<Station>>, b: seq<RowOutcome<Station>>, id: int)
    ensures LatestEntry(a + b, id) == if LatestEntry(b, id).Some? then LatestEntry(b, id) else LatestEntry(a, id)
    decreases |b|
  {
    if b == [] {
      assert a + b == a;
    } else {
      assert (a + b)[..|a + b| - 1] == a + b[..|b| - 1];
      LatestEntryAppend(a, b[..|b| - 1], id);
    }
  }

  /**
   * Last file wins: after loading earlier files and then later ones, a station ID that the
   * later files mention holds their last entry for it, and every other ID keeps what the
   * earlier files gave it. This holds for any row decision, `StationParser(env)` included.
   */
  lemma LastFileWins(parse: RowParser<Station>, earlier: seq<CsvFile>, later: seq<CsvFile>, id: int)
    ensures var whole := LatestEntry(FileOutcomes(parse, earlier + later), id);
            var fromLater := LatestEntry(FileOutcomes(parse, later), id);
            whole == if fromLater.Some? then fromLater else LatestEntry(FileOutcomes(parse, earlier), id)
  {
    FileOutcomesAppend(parse, earlier, later);
    LatestEntryAppend(FileOutcomes(parse, earlier), FileOutcomes(parse, later), id);
  }

  /**
   * The registry build of main.go: every row of every file in order, stopping at the first
   * fatal row. It succeeds exactly when no row is fatal, reports the first fatal row's
   * error otherwise, and on success maps each ID to the station of the last row with that
   * ID and holds no other IDs.
   */
  method BuildRegistry(env: Env, files: seq<CsvFile>) returns (r: Result<Registry, FatalError>)
    ensures r.Failure? <==> FirstFatal(FileOutcomes(StationParser(env), files)).Some?
    ensures r.Failure? ==> r.error == FirstFatal(FileOutcomes(StationParser(env), files)).value
    ensures r.Success? ==> forall id :: Lookup(r.value, id) == LatestEntry(FileOutcomes(StationParser(env), files), id)
    ensures r.Success? ==> forall id :: id in r.value ==> r.value[id].id == id
    ensures r.Success? ==> r.value == RegistryOf(FileOutcomes(StationParser(env), files))
  {
    r := FoldStations(StationParser(env), files);
  }

  /** The loops of the registry build, for any station-row decision. */
  method FoldStations(parse: RowParser<Station>, files: seq<CsvFile>) returns (r: Result<Registry, FatalError>)
    ensures r.Failure? <==> FirstFatal(FileOutcomes(parse, files)).Some?
    ensures r.Failure? ==> r.error == FirstFatal(FileOutcomes(parse, files)).value
    ensures r.Success? ==> forall id :: Lookup(r.value, id) == LatestEntry(FileOutcomes(parse, files), id)
    ensures r.Success? ==> forall id :: id in r.value ==> r.value[id].id == id
    ensures r.Success? ==> r.value == RegistryOf(FileOutcomes(parse, files))
  {
    var stations: Registry := map[];
    var i := 0;
    while i < |files|
      invariant 0 <= i <= |files|
      invariant FirstFatal(FileOutcomes(parse, files[..i])).None?
      invariant forall id :: Lookup(stations, id) == LatestEntry(FileOutcomes(parse, files[..i]), id)
      invariant forall id :: id in stations ==> stations[id].id == id
    {
      var file := files[i];
      var done := FileOutcomes(parse, files[..i]);
      var j := 0;
      assert done + RowOutcomes(parse, file.name, file.rows[..0]) == done;
      while j < |file.rows|
        invariant 0 <= j <= |file.rows|
        invariant FirstFatal(done + RowOutcomes(parse, file.name, file.rows[..j])).None?
        invariant forall id :: Lookup(stations, id) == LatestEntry(done + RowOutcomes(parse, file.name, file.rows[..j]), id)
        invariant forall id :: id in stations ==> stations[id].id == id
      {
        var seen := done + RowOutcomes(parse, file.name, file.rows[..j]);
        var out := parse(file.name, file.rows[j]);
        if out.Fatal? {
          FatalRowEndsRun(parse, files, i, j);
          return Failure(out.error);
        }
        RowOutcomesStep(parse, done, file, j);
        FirstFatalAppend(seen, [out]);
        assert (seen + [out])[..|seen|] == seen;
        if out.Emit? {
          stations := stations[out.value.id := out.value];
        }
        j := j + 1;
      }
      FileOutcomesStep(parse, files, i);
      i := i + 1;
    }
    assert files[..i] == files;
    forall id ensures Lookup(stations, id) == Lookup(RegistryOf(FileOutcomes(parse, files)), id) {
      RegistryOfIsLatest(FileOutcomes(parse, files), id);
    }
    RegistryExtensional(stations, RegistryOf(FileOutcomes(parse, files)));
    return Success(stations);
  }
}

=== FILE: text.dfy ===
/**
 * The string routines the loader relies on: strings.TrimSpace for the station city,
 * strings.Replace(s, ",", "", -1) for the trip duration, and fmt.Sprintf("%d", n) for the
 * document ID of each indexed trip.
 */
module Text {
  import opened Wrappers

  /**
   * Go's unicode.IsSpace: the Latin-1 spaces '\t', '\n', '\v', '\f', '\r', ' ', U+0085 and
   * U+00A0, and above Latin-1 the code points with the White_Space property.
   */
  predicate IsSpace(c: char) {
    || c == ' ' || c == '\t' || c == '\n' || c == '\r' || c == '\U{000B}' || c == '\U{000C}'
    || c == '\U{0085}' || c == '\U{00A0}' || c == '\U{1680}'
    || ('\U{2000}' <= c <= '\U{200A}')
    || c == '\U{2028}' || c == '\U{2029}' || c == '\U{202F}' || c == '\U{205F}' || c == '\U{3000}'
  }

  /** The length of the run of whitespace that starts s. */
  function LeadingSpaces(s: string): (n: nat)
    ensures n <= |s|
    ensures forall k :: 0 <= k < n ==> IsSpace(s[k])
    ensures n < |s| ==> !IsSpace(s[n])
    decreases |s|
  {
    if |s| > 0 && IsSpace(s[0]) then 1 + LeadingSpaces(s[1..]) else 0
  }

  /** The length of the run of whitespace that ends s. */
  function TrailingSpaces(s: string): (n: nat)
    ensures n <= |s|
    ensures forall k :: |s| - n <= k < |s| ==> IsSpace(s[k])
    ensures n < |s| ==> !IsSpace(s[|s| - n - 1])
    decreases |s|
  {
    if |s| > 0 && IsSpace(s[|s| - 1]) then 1 + TrailingSpaces(s[..|s| - 1]) else 0
  }

  /**
   * strings.TrimSpace: the part of s between its leading and its trailing whitespace.
   * The result starts where the leading run ends, everything after it in s is whitespace,
   * and it neither starts nor ends with whitespace.
   */
  function TrimSpace(s: string): (r: string)
    ensures |r| <= |s|
    ensures LeadingSpaces(s) + |r| <= |s| && r == s[LeadingSpaces(s)..LeadingSpaces(s) + |r|]
    ensures forall k :: LeadingSpaces(s) + |r| <= k < |s| ==> IsSpace(s[k])
    ensures r == [] || (!IsSpace(r[0]) && !IsSpace(r[|r| - 1]))
  {
    var i := LeadingSpaces(s);
    var t := s[i..];
    var j := TrailingSpaces(t);
    assert forall k :: i + |t| - j <= k < |s| ==> s[k] == t[k - i];
    s[i..|s| - j]
  }

  /** A string with no whitespace at either end is its own trim. */
  lemma TrimSpaceKeepsTrimmed(s: string)
    requires s == [] || (!IsSpace(s[0]) && !IsSpace(s[|s| - 1]))
    ensures TrimSpace(s) == s
  {
    assert LeadingSpaces(s) == 0;
    assert TrailingSpaces(s) == 0;
  }

  /** Trimming twice is trimming once. */
  lemma TrimSpaceIdempotent(s: string)
    ensures TrimSpace(TrimSpace(s)) == TrimSpace(s)
  {
    TrimSpaceKeepsTrimmed(TrimSpace(s));
  }

  /** Whitespace padding on either side of a trimmed string is exactly what TrimSpace removes. */
  lemma TrimSpaceRemovesPadding(pre: string, s: string, post: string)
    requires forall k :: 0 <= k < |pre| ==> IsSpace(pre[k])
    requires forall k :: 0 <= k < |post| ==> IsSpace(post[k])
    requires s != [] && !IsSpace(s[0]) && !IsSpace(s[|s| - 1])
    ensures TrimSpace(pre + s + post) == s
  {
    var whole := pre + s + post;
    LeadingSpacesOfPadded(pre, s + post);
    assert whole == pre + (s + post);
    var t := whole[|pre|..];
    assert t == s + post;
    TrailingSpacesOfPadded(s, post);
    assert t[..|t| - |post|] == s;
  }

  lemma {:induction false} LeadingSpacesOfPadded(pre: string, s: string)
    requires forall k :: 0 <= k < |pre| ==> IsSpace(pre[k])
    requires s != [] && !IsSpace(s[0])
    ensures LeadingSpaces(pre + s) == |pre|
    decreases |pre|
  {
    if pre != [] {
      assert (pre + s)[1..] == pre[1..] + s;
      LeadingSpacesOfPadded(pre[1..], s);
    } else {
      assert pre + s == s;
    }
  }

  lemma {:induction false} TrailingSpacesOfPadded(s: string, post: string)
    requires forall k :: 0 <= k < |post| ==> IsSpace(post[k])
    requires s != [] && !IsSpace(s[|s| - 1])
    ensures TrailingSpaces(s + post) == |post|
    decreases |post|
  {
    if post != [] {
      assert (s + post)[..|s + post| - 1] == s + post[..|post| - 1];
      TrailingSpacesOfPadded(s, post[..|post| - 1]);
    } else {
      assert s + post == s;
    }
  }

  /**
   * strings.Replace(s, ",", "", -1): s with every comma removed. Every other character
   * keeps its number of occurrences.
   */
  function RemoveCommas(s: string): (r: string)
    ensures ',' !in r
    ensures |r| <= |s|
    ensures forall c :: c != ',' ==> multiset(r)[c] == multiset(s)[c]
    ensures ',' !in s ==> r == s
    decreases |s|
  {
    if s == [] then []
    else
      assert s == [s[0]] + s[1..];
      (if s[0] == ',' then [] else [s[0]]) + RemoveCommas(s[1..])
  }

  /** Comma removal works piecewise: it commutes with concatenation. */
  lemma {:induction false} RemoveCommasAppend(a: string, b: string)
    ensures RemoveCommas(a + b) == RemoveCommas(a) + RemoveCommas(b)
    decreases |a|
  {
    if a == [] {
      assert a + b == b;
    } else {
      assert (a + b)[0] == a[0];
      assert (a + b)[1..] == a[1..] + b;
      RemoveCommasAppend(a[1..], b);
    }
  }

  /** A string without commas is left alone, so removing commas twice is removing them once. */
  lemma RemoveCommasIdempotent(s: string)
    ensures RemoveCommas(RemoveCommas(s)) == RemoveCommas(s)
  {
  }

  predicate IsDigit(c: char) {
    '0' <= c <= '9'
  }

  predicate AllDigits(s: string) {
    forall k :: 0 <= k < |s| ==> IsDigit(s[k])
  }

  function DigitValue(c: char): (d: nat)
    requires IsDigit(c)
    ensures d < 10
  {
    (c as int) - ('0' as int)
  }

  function DigitChar(d: nat): (c: char)
    requires d < 10
    ensures IsDigit(c) && DigitValue(c) == d
  {
    (('0' as int) + d) as char
  }

  /** The decimal digits of n, most significant first, without leading zeros. */
  function NatString(n: nat): (r: string)
    ensures |r| > 0 && AllDigits(r)
    ensures |r| > 1 ==> r[0] != '0'
    decreases n
  {
    if n < 10 then [DigitChar(n)] else NatString(n / 10) + [DigitChar(n % 10)]
  }

  /** fmt.Sprintf("%d", n): a minus sign for negative numbers, then the digits of |n|. */
  function DecimalString(n: int): (r: string)
    ensures |r| > 0
    ensures r[0] == '-' <==> n < 0
    ensures n >= 0 ==> AllDigits(r)
  {
    if n < 0 then "-" + NatString(-n) else NatString(n)
  }

  /** The number a string of decimal digits denotes. */
  function DigitsValue(s: string): nat
    requires AllDigits(s)
    decreases |s|
  {
    if s == [] then 0 else DigitsValue(s[..|s| - 1]) * 10 + DigitValue(s[|s| - 1])
  }

  /** Reads back what DecimalString renders: an optional minus sign and at least one digit. */
  function ParseDecimal(s: string): Option<int>
  {
    if |s| > 1 && s[0] == '-' && AllDigits(s[1..]) then Some(0 - DigitsValue(s[1..]) as int)
    else if |s| > 0 && AllDigits(s) then Some(DigitsValue(s))
    else None
  }

  lemma {:induction false} NatStringValue(n: nat)
    ensures DigitsValue(NatString(n)) == n
    decreases n
  {
    if n >= 10 {
      var r := NatString(n);
      assert r[..|r| - 1] == NatString(n / 10);
      NatStringValue(n / 10);
    }
  }

  /** Rendering an integer with %d and reading it back gives the integer. */
  lemma DecimalRoundTrip(n: int)
    ensures ParseDecimal(DecimalString(n)) == Some(n)
  {
    if n < 0 {
      assert DecimalString(n)[1..] == NatString(-n);
      NatStringValue(-n);
    } else {
      NatStringValue(n);
    }
  }

  /** Different integers render to different strings. */
  lemma DecimalStringInjective(a: int, b: int)
    ensures DecimalString(a) == DecimalString(b) ==> a == b
  {
    DecimalRoundTrip(a);
    DecimalRoundTrip(b);
  }
}

=== FILE: timestamps.dfy ===
/**
 * Timestamp parsing: the loader appends the current America/Chicago offset and zone
 * abbreviation to the field and tries five Go layouts in a fixed order; the first one that
 * parses wins, and if none does the run ends.
 */
module Timestamps {
  import opened Wrappers
  import opened Externals

  /** The layouts, most specific first, in the order the loader tries them. */
  const Layouts: seq<string> := [
    "1/2/2006 15:04:05 -0700 MST",
    "1/2/2006 15:04 -0700 MST",
    "1/2/2006 -0700 MST",
    "2006-01-02 15:04:05 -0700 MST",
    "2006-01-02 15:04 -0700 MST"
  ]

  /** The instant given by the first layout that parses value; None when none does. */
  function FirstParse(parse: (string, string) -> Option<Instant>, layouts: seq<string>, value: string): (r: Option<Instant>)
    ensures r.None? <==> forall i :: 0 <= i < |layouts| ==> parse(layouts[i], value).None?
    decreases |layouts|
  {
    if layouts == [] then None
    else if parse(layouts[0], value).Some? then parse(layouts[0], value)
    else FirstParse(parse, layouts[1..], value)
  }

  /**
   * The cascade's result is the instant of the first layout that parses: the layout at
   * index i wins when it parses and no layout before it does.
   */
  lemma {:induction false} FirstParsePicksFirst(parse: (string, string) -> Option<Instant>, layouts: seq<string>, value: string, i: nat)
    requires i < |layouts| && parse(layouts[i], value).Some?
    requires forall j :: 0 <= j < i ==> parse(layouts[j], value).None?
    ensures FirstParse(parse, layouts, value) == parse(layouts[i], value)
    decreases i
  {
    if i > 0 {
      FirstParsePicksFirst(parse, layouts[1..], value, i - 1);
    }
  }

  /**
   * No later layout is consulted: two parsers that agree on the layouts up to and including
   * the first one that succeeds give the same result, whatever they do on the layouts after.
   */
  lemma {:induction false} FirstParseIgnoresLaterLayouts(
    parse: (string, string) -> Option<Instant>, other: (string, string) -> Option<Instant>,
    layouts: seq<string>, value: string, i: nat)
    requires i < |layouts| && parse(layouts[i], value).Some?
    requires forall j :: 0 <= j < i ==> parse(layouts[j], value).None?
    requires forall j :: 0 <= j <= i ==> other(layouts[j], value) == parse(layouts[j], value)
    ensures FirstParse(other, layouts, value) == FirstParse(parse, layouts, value)
    decreases i
  {
    if i > 0 {
      FirstParseIgnoresLaterLayouts(parse, other, layouts[1..], value, i - 1);
    }
  }

  /** The text handed to time.Parse: the field, a space, and the current zone suffix. */
  function WithZone(env: Env, field: string): string {
    field + " " + env.zoneSuffix
  }

  /** A trip timestamp field read through the five layouts. */
  function ParseTimestamp(env: Env, field: string): (r: Option<Instant>)
    ensures r.None? <==> forall i :: 0 <= i < |Layouts| ==> env.timeParse(Layouts[i], WithZone(env, field)).None?
  {
    FirstParse(env.timeParse, Layouts, WithZone(env, field))
  }
}

=== FILE: trips.dfy ===
/**
 * Trip enrichment: the decision the loader makes about one trip row, given the finished
 * station registry. A row is emitted as an enriched trip, skipped (the header, or a trip
 * whose origin or destination station is not in the registry), or ends the run.
 */
module Trips {
  import opened Wrappers
  import opened Externals
  import opened Rows
  import opened Stations
  import Text
  import Timestamps

  /** A station's coordinates as copied into a trip, still as text. */
  datatype Geo = Geo(lat: string, lon: string)

  /** A station as a trip carries it: the ID from the trip row and the registry's attributes. */
  datatype StationRef = StationRef(id: int, name: string, city: string, geo: Geo, totalDocks: int)

  /**
   * An enriched trip. `durationSeconds` is the comma-free duration text that the loader
   * parses as a float; the minutes, distance and speed derived from it are floating point
   * and not part of this model, beyond whether they are finite (`Encodable`).
   */
  datatype Trip = Trip(
    id: int,
    startTime: string,
    endTime: string,
    dayOfWeek: string,
    bikeId: int,
    durationSeconds: string,
    userType: string,
    gender: Option<string>,
    birthYear: Option<int>,
    age: Option<int>,
    fromStation: StationRef,
    toStation: StationRef)

  /** First field of a trip file's header row. */
  const TripHeader := "trip_id"

  /** The year ages are computed against. */
  const ReferenceYear := 2018

  /** Column positions in a trip row. */
  const TripIdColumn := 0
  const StartColumn := 1
  const EndColumn := 2
  const BikeColumn := 3
  const DurationColumn := 4
  const FromStationColumn := 5
  const ToStationColumn := 7
  const UserTypeColumn := 9
  const GenderColumn := 10
  const BirthYearColumn := 11

  /** The user-type label the source calls "Customer" is published as "Casual". */
  function NormalizeUserType(raw: string): (r: string)
    ensures r != "Customer"
    ensures r == "Casual" <==> raw == "Customer" || raw == "Casual"
    ensures raw != "Customer" ==> r == raw
  {
    if raw == "Customer" then "Casual" else raw
  }

  /** Normalizing a normalized user type changes nothing. */
  lemma UserTypeIdempotent(raw: string)
    ensures NormalizeUserType(NormalizeUserType(raw)) == NormalizeUserType(raw)
  {
  }

  /** An empty gender field means the gender is absent; any other text is kept as is. */
  function GenderOf(raw: string): (r: Option<string>)
    ensures r.None? <==> raw == ""
    ensures r.Some? ==> r.value == raw
  {
    if raw == "" then None else Some(raw)
  }

  /** Birth year and age of a trip's rider, each possibly absent. */
  datatype Birth = Birth(year: Option<int>, age: Option<int>)

  /**
   * The birth-year field as intended: empty or unparseable means both are absent and is
   * never fatal; a parsed positive year y gives birth year y and age ReferenceYear - y.
   */
  function BirthOf(env: Env, raw: string): (r: Birth)
    ensures raw == "" ==> r == Birth(None, None)
    ensures r.year.Some? <==> raw != "" && env.atoi(raw).Parsed? && env.atoi(raw).value > 0
    ensures r.age.Some? <==> r.year.Some?
    ensures r.year.Some? ==> r.year.value == env.atoi(raw).value && r.age.value == ReferenceYear - r.year.value
  {
    if raw == "" then Birth(None, None)
    else match env.atoi(raw)
      case Parsed(y) => if y > 0 then Birth(Some(y), Some(ReferenceYear - y)) else Birth(None, None)
      case Invalid(_) => Birth(None, None)
  }

  /**
   * The birth-year field as main.go handles it: after a failed Atoi it logs the error and
   * goes on to use the integer Atoi returned anyway. That integer is 0 for a syntax error,
   * but MaxInt64 for a number too large for an int, which then becomes the birth year.
   */
  function BirthOfAsWritten(env: Env, raw: string): (r: Birth)
    ensures r != BirthOf(env, raw) <==> raw != "" && env.atoi(raw).Invalid? && env.atoi(raw).value > 0
    ensures r != BirthOf(env, raw) ==> r == Birth(Some(env.atoi(raw).value), Some(ReferenceYear - env.atoi(raw).value))
  {
    if raw == "" then Birth(None, None)
    else
      var y := env.atoi(raw).value;
      if y > 0 then Birth(Some(y), Some(ReferenceYear - y)) else Birth(None, None)
  }

  /**
   * A birth-year field too large for Atoi, such as "99999999999999999999", for which Atoi
   * reports a range error and returns MaxInt64: the code as written keeps MaxInt64 as the
   * birth year and a large negative age, while the intended reading drops both.
   */
  lemma OverflowingBirthYearIsKept(env: Env)
    requires env.atoi("99999999999999999999") == Invalid(MaxInt64)
    ensures BirthOfAsWritten(env, "99999999999999999999") == Birth(Some(MaxInt64), Some(2018 - MaxInt64))
    ensures BirthOf(env, "99999999999999999999") == Birth(None, None)
  {
  }

  /** A registry station as the trip carries it, under the ID read from the trip row. */
  function JoinStation(id: int, s: Station): StationRef {
    StationRef(id, s.name, s.city, Geo(s.latitude, s.longitude), s.totalDocks)
  }

  /** Field k of the row; Go panics when the row is too short. */
  function Field(row: Row, k: nat): RowOutcome<string> {
    if k < |row| then Emit(row[k]) else Fatal(RowTooShort(k, |row|))
  }

  /** A required integer field: its value, or the given fatal error. */
  function IntField(env: Env, text: string, err: FatalError): RowOutcome<int> {
    if env.atoi(text).Parsed? then Emit(env.atoi(text).value) else Fatal(err)
  }

  /** A required timestamp field: its instant, or the given fatal error. */
  function TimeField(env: Env, text: string, err: FatalError): RowOutcome<Instant> {
    match Timestamps.ParseTimestamp(env, text)
    case Some(t) => Emit(t)
    case None => Fatal(err)
  }

  /** A station lookup: the registry entry, or a skip of the whole row. */
  function StationField(reg: Registry, id: int, reason: SkipReason): RowOutcome<Station> {
    if id in reg then Emit(reg[id]) else Skip(reason)
  }

  /** A coordinate that must parse as a float, or the run ends. */
  function CoordinateField(env: Env, text: string): RowOutcome<string> {
    if env.parseFloat(text) then Emit(text) else Fatal(MalformedCoordinate(text))
  }

  /** The checks of a trip row that pass up to and including the trip ID. */
  predicate TripIdOk(env: Env, row: Row) {
    |row| > 0 && row[0] != TripHeader && env.atoi(row[0]).Parsed?
  }

  predicate StartOk(env: Env, row: Row) {
    TripIdOk(env, row) && |row| > StartColumn && Timestamps.ParseTimestamp(env, row[StartColumn]).Some?
  }

  predicate EndOk(env: Env, row: Row) {
    StartOk(env, row) && |row| > EndColumn && Timestamps.ParseTimestamp(env, row[EndColumn]).Some?
  }

  predicate BikeOk(env: Env, row: Row) {
    EndOk(env, row) && |row| > BikeColumn && env.atoi(row[BikeColumn]).Parsed?
  }

  predicate DurationOk(env: Env, row: Row) {
    BikeOk(env, row) && |row| > DurationColumn && env.parseFloat(Text.RemoveCommas(row[DurationColumn]))
  }

  /** The fields of a trip row that do not depend on the registry, as the trip will carry them. */
  datatype RowFields = RowFields(
    id: int,
    startTime: string,
    endTime: string,
    dayOfWeek: string,
    bikeId: int,
    durationSeconds: string,
    userType: string,
    gender: Option<string>,
    birth: Birth)

  /** Every check before the origin-station ID has passed and every column up to the birth year exists. */
  predicate RowFieldsOk(env: Env, row: Row) {
    DurationOk(env, row) && |row| > BirthYearColumn
  }

  /**
   * The first half of the trip decision: the header skip and the checks of the trip ID,
   * start time, end time, bike ID and duration, in that order, then the rider fields.
   */
  function ReadRowFields(env: Env, row: Row): (r: RowOutcome<RowFields>)
    ensures r == Skip(HeaderRow) <==> |row| > 0 && row[0] == TripHeader
    ensures r.Skip? ==> r.reason == HeaderRow
    ensures r.Fatal? && r.error.MalformedTripId? <==> |row| > 0 && row[0] != TripHeader && env.atoi(row[0]).Invalid?
    ensures r.Fatal? && r.error.UnparseableStartTime? <==>
      TripIdOk(env, row) && |row| > StartColumn && Timestamps.ParseTimestamp(env, row[StartColumn]).None?
    ensures r.Fatal? && r.error.UnparseableEndTime? <==>
      StartOk(env, row) && |row| > EndColumn && Timestamps.ParseTimestamp(env, row[EndColumn]).None?
    ensures r.Fatal? && r.error.MalformedBikeId? <==>
      EndOk(env, row) && |row| > BikeColumn && env.atoi(row[BikeColumn]).Invalid?
    ensures r.Fatal? && r.error.MalformedDuration? <==>
      BikeOk(env, row) && |row| > DurationColumn && !env.parseFloat(Text.RemoveCommas(row[DurationColumn]))
    ensures r.Fatal? ==>
      || r.error.RowTooShort? || r.error.MalformedTripId? || r.error.UnparseableStartTime?
      || r.error.UnparseableEndTime? || r.error.MalformedBikeId? || r.error.MalformedDuration?
    ensures r.Fatal? && r.error.RowTooShort? ==> |row| <= BirthYearColumn
    // a panic names the first missing column in reading order 0-4, 9, 10, 11
    ensures r.Fatal? && r.error.RowTooShort? ==>
      && r.error.length == |row|
      && r.error.index == (if |row| <= DurationColumn then |row| else if |row| <= UserTypeColumn then UserTypeColumn else |row|)
    ensures r.Emit? <==> RowFieldsOk(env, row)
    ensures r.Emit? ==>
      && r.value.id == env.atoi(row[TripIdColumn]).value
      && r.value.startTime == env.formatRfc3339(Timestamps.ParseTimestamp(env, row[StartColumn]).value)
      && r.value.endTime == env.formatRfc3339(Timestamps.ParseTimestamp(env, row[EndColumn]).value)
      && r.value.dayOfWeek == env.weekday(Timestamps.ParseTimestamp(env, row[EndColumn]).value)
      && r.value.bikeId == env.atoi(row[BikeColumn]).value
      && r.value.durationSeconds == Text.RemoveCommas(row[DurationColumn])
      && r.value.userType == NormalizeUserType(row[UserTypeColumn])
      && r.value.gender == GenderOf(row[GenderColumn])
      && r.value.birth == BirthOf(env, row[BirthYearColumn])
  {
    var idText :- Field(row, TripIdColumn);
    if idText == TripHeader then Skip(HeaderRow) else
    var id :- IntField(env, idText, MalformedTripId(idText));
    var startText :- Field(row, StartColumn);
    var start :- TimeField(env, startText, UnparseableStartTime(startText));
    var endText :- Field(row, EndColumn);
    var end :- TimeField(env, endText, UnparseableEndTime(endText));
    var bikeText :- Field(row, BikeColumn);
    var bikeId :- IntField(env, bikeText, MalformedBikeId(bikeText));
    var durationText :- Field(row, DurationColumn);
    var seconds := Text.RemoveCommas(durationText);
    if !env.parseFloat(seconds) then Fatal(MalformedDuration(durationText)) else
    var userType :- Field(row, UserTypeColumn);
    var gender :- Field(row, GenderColumn);
    var birthText :- Field(row, BirthYearColumn);
    Emit(RowFields(
      id, env.formatRfc3339(start), env.formatRfc3339(end), env.weekday(end), bikeId,
      seconds, NormalizeUserType(userType), GenderOf(gender), BirthOf(env, birthText)))
  }

  /**
   * The second half of the trip decision: the origin ID is parsed and looked up, and only
   * then the destination ID; a station missing from the registry skips the row, a
   * non-numeric ID, a coordinate that is not a float, or a trip json.Marshal refuses ends
   * the run.
   */
  function JoinStations(env: Env, reg: Registry, row: Row, fields: RowFields): (r: RowOutcome<Trip>)
    requires |row| > BirthYearColumn
    ensures r.Fatal? && r.error.MalformedFromStationId? <==> env.atoi(row[FromStationColumn]).Invalid?
    ensures r.Skip? && r.reason.UnknownFromStation? <==>
      env.atoi(row[FromStationColumn]).Parsed? && env.atoi(row[FromStationColumn]).value !in reg
    ensures r.Fatal? && r.error.MalformedToStationId? <==>
      && env.atoi(row[FromStationColumn]).Parsed? && env.atoi(row[FromStationColumn]).value in reg
      && env.atoi(row[ToStationColumn]).Invalid?
    ensures r.Skip? && r.reason.UnknownToStation? <==>
      && env.atoi(row[FromStationColumn]).Parsed? && env.atoi(row[FromStationColumn]).value in reg
      && env.atoi(row[ToStationColumn]).Parsed? && env.atoi(row[ToStationColumn]).value !in reg
    ensures r.Skip? ==> r.reason.UnknownFromStation? || r.reason.UnknownToStation?
    ensures r.Fatal? ==>
      r.error.MalformedFromStationId? || r.error.MalformedToStationId? || r.error.MalformedCoordinate? || r.error.UnencodableTrip?
    ensures r.Fatal? && r.error.UnencodableTrip? <==>
      && env.atoi(row[FromStationColumn]).Parsed? && env.atoi(row[FromStationColumn]).value in reg
      && env.atoi(row[ToStationColumn]).Parsed? && env.atoi(row[ToStationColumn]).value in reg
      && CoordinatesParse(env, reg[env.atoi(row[FromStationColumn]).value])
      && CoordinatesParse(env, reg[env.atoi(row[ToStationColumn]).value])
      && !Encodable(env, fields.durationSeconds,
                    reg[env.atoi(row[FromStationColumn]).value], reg[env.atoi(row[ToStationColumn]).value])
    ensures r.Fatal? && r.error.UnencodableTrip? ==> r.error.id == fields.id
    ensures r.Emit? <==>
      && env.atoi(row[FromStationColumn]).Parsed? && env.atoi(row[FromStationColumn]).value in reg
      && env.atoi(row[ToStationColumn]).Parsed? && env.atoi(row[ToStationColumn]).value in reg
      && CoordinatesParse(env, reg[env.atoi(row[FromStationColumn]).value])
      && CoordinatesParse(env, reg[env.atoi(row[ToStationColumn]).value])
      && Encodable(env, fields.durationSeconds,
                   reg[env.atoi(row[FromStationColumn]).value], reg[env.atoi(row[ToStationColumn]).value])
    ensures r.Emit? ==>
      && r.value == TripOf(fields, r.value.fromStation, r.value.toStation)
      && r.value.fromStation.id == env.atoi(row[FromStationColumn]).value
      && r.value.toStation.id == env.atoi(row[ToStationColumn]).value
      && r.value.fromStation.id in reg && r.value.toStation.id in reg
      && r.value.fromStation == JoinStation(r.value.fromStation.id, reg[r.value.fromStation.id])
      && r.value.toStation == JoinStation(r.value.toStation.id, reg[r.value.toStation.id])
  {
    var fromText := row[FromStationColumn];
    var fromId :- IntField(env, fromText, MalformedFromStationId(fromText));
    var from :- StationField(reg, fromId, UnknownFromStation(fromId));
    var toText := row[ToStationColumn];
    var toId :- IntField(env, toText, MalformedToStationId(toText));
    var to :- StationField(reg, toId, UnknownToStation(toId));
    var _ :- CoordinateField(env, from.latitude);
    var _ :- CoordinateField(env, from.longitude);
    var _ :- CoordinateField(env, to.latitude);
    var _ :- CoordinateField(env, to.longitude);
    if !Encodable(env, fields.durationSeconds, from, to) then Fatal(UnencodableTrip(fields.id)) else
    Emit(TripOf(fields, JoinStation(fromId, from), JoinStation(toId, to)))
  }

  /**
   * The trip's duration, distance and speed, computed from the duration text and the two
   * stations' coordinates, are finite, so json.Marshal accepts the trip.
   */
  predicate Encodable(env: Env, durationSeconds: string, from: Station, to: Station) {
    env.finiteFloats(durationSeconds, from.latitude, from.longitude, to.latitude, to.longitude)
  }

  /** Both coordinates of a station parse as floats. */
  predicate CoordinatesParse(env: Env, s: Station) {
    env.parseFloat(s.latitude) && env.parseFloat(s.longitude)
  }

  function TripOf(f: RowFields, from: StationRef, to: StationRef): Trip {
    Trip(f.id, f.startTime, f.endTime, f.dayOfWeek, f.bikeId, f.durationSeconds, f.userType,
         f.gender, f.birth.year, f.birth.age, from, to)
  }

  /**
   * The loader's decision about one trip row against the finished registry: the header and
   * rows naming a station the registry lacks are skipped, malformed required fields end the
   * run in the order the loader checks them, a trip json.Marshal refuses ends it too, and
   * everything else is emitted joined with its two stations.
   */
  function Enrich(env: Env, reg: Registry, row: Row): (r: RowOutcome<Trip>)
    // the header row is skipped, never fatal
    ensures r == Skip(HeaderRow) <==> |row| > 0 && row[0] == TripHeader
    // the fatal checks in order: each fires exactly when every earlier check passed
    ensures r.Fatal? && r.error.MalformedTripId? <==> |row| > 0 && row[0] != TripHeader && env.atoi(row[0]).Invalid?
    ensures r.Fatal? && r.error.UnparseableStartTime? <==>
      TripIdOk(env, row) && |row| > StartColumn && Timestamps.ParseTimestamp(env, row[StartColumn]).None?
    ensures r.Fatal? && r.error.UnparseableEndTime? <==>
      StartOk(env, row) && |row| > EndColumn && Timestamps.ParseTimestamp(env, row[EndColumn]).None?
    ensures r.Fatal? && r.error.MalformedBikeId? <==>
      EndOk(env, row) && |row| > BikeColumn && env.atoi(row[BikeColumn]).Invalid?
    ensures r.Fatal? && r.error.MalformedDuration? <==>
      BikeOk(env, row) && |row| > DurationColumn && !env.parseFloat(Text.RemoveCommas(row[DurationColumn]))
    ensures r.Fatal? && r.error.MalformedFromStationId? <==>
      RowFieldsOk(env, row) && env.atoi(row[FromStationColumn]).Invalid?
    // an unknown origin is a skip, decided before the destination ID is even read
    ensures r.Skip? && r.reason.UnknownFromStation? <==>
      RowFieldsOk(env, row) && env.atoi(row[FromStationColumn]).Parsed? && env.atoi(row[FromStationColumn]).value !in reg
    ensures r.Fatal? && r.error.MalformedToStationId? <==>
      && RowFieldsOk(env, row) && env.atoi(row[FromStationColumn]).Parsed? && env.atoi(row[FromStationColumn]).value in reg
      && env.atoi(row[ToStationColumn]).Invalid?
    ensures r.Skip? && r.reason.UnknownToStation? <==>
      && RowFieldsOk(env, row) && env.atoi(row[FromStationColumn]).Parsed? && env.atoi(row[FromStationColumn]).value in reg
      && env.atoi(row[ToStationColumn]).Parsed? && env.atoi(row[ToStationColumn]).value !in reg
    // a trip whose duration, distance or speed is not finite cannot be marshalled: fatal
    ensures r.Fatal? && r.error.UnencodableTrip? <==>
      && RowFieldsOk(env, row)
      && env.atoi(row[FromStationColumn]).Parsed? && env.atoi(row[FromStationColumn]).value in reg
      && env.atoi(row[ToStationColumn]).Parsed? && env.atoi(row[ToStationColumn]).value in reg
      && CoordinatesParse(env, reg[env.atoi(row[FromStationColumn]).value])
      && CoordinatesParse(env, reg[env.atoi(row[ToStationColumn]).value])
      && !Encodable(env, Text.RemoveCommas(row[DurationColumn]),
                    reg[env.atoi(row[FromStationColumn]).value], reg[env.atoi(row[ToStationColumn]).value])
    ensures r.Emit? <==>
      && RowFieldsOk(env, row)
      && env.atoi(row[FromStationColumn]).Parsed? && env.atoi(row[FromStationColumn]).value in reg
      && env.atoi(row[ToStationColumn]).Parsed? && env.atoi(row[ToStationColumn]).value in reg
      && CoordinatesParse(env, reg[env.atoi(row[FromStationColumn]).value])
      && CoordinatesParse(env, reg[env.atoi(row[ToStationColumn]).value])
      && Encodable(env, Text.RemoveCommas(row[DurationColumn]),
                   reg[env.atoi(row[FromStationColumn]).value], reg[env.atoi(row[ToStationColumn]).value])
    // the only ways a trip row ends the run
    ensures r.Fatal? ==>
      || r.error.RowTooShort? || r.error.MalformedTripId? || r.error.UnparseableStartTime?
      || r.error.UnparseableEndTime? || r.error.MalformedBikeId? || r.error.MalformedDuration?
      || r.error.MalformedFromStationId? || r.error.MalformedToStationId?
      || r.error.MalformedCoordinate? || r.error.UnencodableTrip?
    // a bad coordinate ends the run naming that coordinate, once both stations are known
    ensures r.Fatal? && r.error.MalformedCoordinate? <==>
      && RowFieldsOk(env, row)
      && env.atoi(row[FromStationColumn]).Parsed? && env.atoi(row[FromStationColumn]).value in reg
      && env.atoi(row[ToStationColumn]).Parsed? && env.atoi(row[ToStationColumn]).value in reg
      && !(CoordinatesParse(env, reg[env.atoi(row[FromStationColumn]).value])
           && CoordinatesParse(env, reg[env.atoi(row[ToStationColumn]).value]))
    // a panic on a short row happens only before the birth-year column has been read
    ensures r.Fatal? && r.error.RowTooShort? ==> |row| <= BirthYearColumn
    // a panic names the first missing column in reading order 0-4, 9, 10, 11
    ensures r.Fatal? && r.error.RowTooShort? ==>
      && r.error.length == |row|
      && r.error.index == (if |row| <= DurationColumn then |row| else if |row| <= UserTypeColumn then UserTypeColumn else |row|)
    // what an emitted trip holds
    ensures r.Emit? ==>
      && r.value.id == env.atoi(row[TripIdColumn]).value
      && r.value.bikeId == env.atoi(row[BikeColumn]).value
      && r.value.durationSeconds == Text.RemoveCommas(row[DurationColumn])
      && r.value.userType == NormalizeUserType(row[UserTypeColumn])
      && r.value.gender == GenderOf(row[GenderColumn])
      && Birth(r.value.birthYear, r.value.age) == BirthOf(env, row[BirthYearColumn])
    ensures r.Emit? ==>
      && r.value.startTime == env.formatRfc3339(Timestamps.ParseTimestamp(env, row[StartColumn]).value)
      && r.value.endTime == env.formatRfc3339(Timestamps.ParseTimestamp(env, row[EndColumn]).value)
      && r.value.dayOfWeek == env.weekday(Timestamps.ParseTimestamp(env, row[EndColumn]).value)
    // every emitted trip joins two registry stations and copies their attributes
    ensures r.Emit? ==>
      && r.value.fromStation.id == env.atoi(row[FromStationColumn]).value
      && r.value.toStation.id == env.atoi(row[ToStationColumn]).value
      && r.value.fromStation.id in reg && r.value.toStation.id in reg
      && r.value.fromStation == JoinStation(r.value.fromStation.id, reg[r.value.fromStation.id])
      && r.value.toStation == JoinStation(r.value.toStation.id, reg[r.value.toStation.id])
  {
    var fields :- ReadRowFields(env, row);
    JoinStations(env, reg, row, fields)
  }

  /**
   * The skip law: a row whose origin station is unknown produces nothing and does not end
   * the run, whatever its destination column holds, because the destination ID is only
   * read after the origin lookup succeeds.
   */
  lemma UnknownOriginIgnoresDestination(env: Env, reg: Registry, row: Row, destination: string)
    requires RowFieldsOk(env, row)
    requires env.atoi(row[FromStationColumn]).Parsed? && env.atoi(row[FromStationColumn]).value !in reg
    ensures Enrich(env, reg, row) == Skip(UnknownFromStation(env.atoi(row[FromStationColumn]).value))
    ensures Enrich(env, reg, row[ToStationColumn := destination]) == Enrich(env, reg, row)
  {
    var other := row[ToStationColumn := destination];
    assert other[TripIdColumn] == row[TripIdColumn] && other[StartColumn] == row[StartColumn];
    assert other[EndColumn] == row[EndColumn] && other[BikeColumn] == row[BikeColumn];
    assert other[DurationColumn] == row[DurationColumn] && other[FromStationColumn] == row[FromStationColumn];
    assert RowFieldsOk(env, other);
  }
}

=== FILE: wrappers.dfy ===
/** Optional values and results with an error, used throughout the model. */
module Wrappers {

  /** A value that may be absent, as a nil-able Go field. */
  datatype Option<+T> = None | Some(value: T)

  /** The outcome of a step that either produces a value or ends the run with an error. */
  datatype Result<+T, +E> = Success(value: T) | Failure(error: E)
}
